=== FILE: README.md ===
# Vision Board 2026 worker — a Dafny model

This project models the logic of the Vision Board 2026 Cloudflare Worker (`index.js`).
The worker stores yearly-goal registrations in a spreadsheet-backed store. It sends each
new user a welcome e-mail, and once a day it sends reminders to the users whose chosen
weekday is today. Every network call (sheet store, AI backends, e-mail providers) becomes
an input value describing its outcome, so each piece of the worker is a pure function:

- `Days`: the `DAYS_MAP` table from Spanish weekday labels to `getDay()` numbers (0 is Sunday).
- `Schedule`: the daily run (`sendDailyEmails`). It fetches users, keeps those due today,
  and cuts them into consecutive batches of three with a pause between batches.
- `Failover`: `sendEmailWithService`, which tries SendGrid, then Mailjet, then Resend.
- `Content`: `generateWelcomeMessage` (DeepSeek, then Gemini, then a static text) and
  `generateDailyContent` (Gemini, then DeepSeek, then a static text).
- `Format`: the `**bold**` and newline formatter both e-mail templates apply.
- `Handlers`: the route table of `fetch`, `handleSubmit` with `saveToGoogleSheets`,
  `handleSendTest`, the health report, and the two send paths.

Inputs that stand for the outside world:
- Today's weekday is a `Weekday` parameter.
- The long Spanish date used in the daily subject is a `date` string parameter.
- A provider call is `Ok`, `NotOk(detail)` or `Threw`.
- An AI backend answer is `Some(text)` or `None`.
- A sheet reply is a decoded value or `Unreachable`.
- A store reply is an object, `null`, or a thrown call.

Behaviour of the worker worth noting:
- No label validation happens on submission. An unknown `diaRecordatorio` is stored, and the
  daily filter never selects it.
- When every provider fails, the result is not always "the last error". If Resend answers
  non-2xx, its body text is returned. If Resend throws, the fixed text
  "Todos los servicios fallaron" is returned.
- `handleSubmit` validates no fields. A store call that throws is turned into
  `{success: false}`, and the failure is reported to the caller with status 500. The
  "success on network error" behaviour belongs to the React form, which is not part of this model.
- JavaScript's `.` matches no line terminator at all: neither `\n` nor `\r`, U+2028 or U+2029.
  So a `**` pair is never matched across any of these four characters, not only across `\n`.
- An AI backend that answers with an empty string is used as-is. Only the static fallbacks
  are guaranteed non-empty.

## Model

| member | source | states |
|---|---|---|
| Days.DayLabel | index.js:11-19 | each weekday number has a label, and the table maps that label back to the same number |
| Days.DayIndex | index.js:124 | the `DAYS_MAP[...]` lookup gives a weekday exactly for the seven labels, and a known label is the one `DayLabel` gives back for its number |
| Days.DayIndexInjective | index.js:11-19 | no two labels share a weekday number |
| Schedule.GetUsersFromSheets | index.js:170-177 | the sheet's decoded body is handed on untouched; a call that throws becomes the empty list, so a non-empty user list only comes from the sheet's own answer |
| Schedule.Select | index.js:123-125 | the filtered list holds only users due today, keeps each due user with its multiplicity, drops every other user, and is an order-preserving subsequence of the fetched list |
| Schedule.DueToday | index.js:170-177 | a fetch that throws, or a body that is not a list, gives nobody to send to; otherwise the result is the order-preserving filter of the fetched list |
| Schedule.UnknownLabelNeverSelected | index.js:123-125 | a user whose label is not one of the seven is never selected, whatever the day |
| Schedule.SelectedIff | index.js:123-125 | a user is selected exactly when it is in the fetched list and its label maps to today |
| Schedule.SelectKeepsAllDue | index.js:123-125 | when every fetched user is due, the filter keeps the whole list in order |
| Schedule.Chunks | index.js:130-131 | flattening the batches gives back the selected list; there are ceil(n/3) batches of size 1 to 3, and only the last may be shorter than 3 |
| Schedule.ChunkAt | index.js:130-131 | batch i is exactly the slice [3i, min(3i+3, n)) of the selected list |
| Schedule.SevenSplit | index.js:130-131 | seven users go out as batches of 3, 3 and 1, in their original order |
| Schedule.PlanBatches | index.js:130-138 | the loop over i = 0, 3, 6, ... produces the reference partition of the list it is given; it pauses once between consecutive batches and never after the last, so it takes ceil(n/3) - 1 pauses for n > 0 and none for n = 0 |
| Schedule.SendDailyEmails | index.js:110-138 | the daily run batches exactly the users due today into the reference partition, with ceil(n/3) - 1 pauses for n > 0 and none for n = 0 |
| Failover.Reply | index.js:282-285 | a provider that answers reports success exactly on a 2xx status; a success carries no error, and a failure carries the provider's error detail (the same shape is returned at index.js:311-314 and index.js:335-338) |
| Failover.SendEmailWithService | index.js:239-261 | the attempts are a non-empty prefix of SendGrid, Mailjet, Resend; no attempt before the last succeeded, and a failing last attempt means all three were tried; the result is success exactly when an attempted provider succeeded; a SendGrid success means one attempt; a success carries no error; if all fail, the error is Resend's text, or the fixed message when Resend threw |
| Failover.UnattemptedProvidersIrrelevant | index.js:239-257 | outcomes of providers that are never called cannot change the result or the trace |
| Failover.ThirdProviderDelivers | index.js:255-257 | when SendGrid and Mailjet fail and Resend succeeds, three calls are made in order and the message is delivered |
| Content.FirstAnswer | index.js:353-389 | the ordered fallback: the text comes from a backend only if every backend before it had no answer, and the static text is used exactly when no backend answered |
| Content.GenerateWelcomeMessage | index.js:353-389 | welcome copy is DeepSeek's text if there is one, else Gemini's, else the static welcome |
| Content.GenerateDailyContent | index.js:410-451 | daily copy is Gemini's text if there is one, else DeepSeek's, else the static daily text |
| Content.StaticWelcome | index.js:388 | the static welcome is longer than the name and goals together, so it is never empty, and it quotes both the name and the whole goals text |
| Content.Truncate | index.js:447 | `substring(0, 50)` keeps the first min(50, length) characters of the goals |
| Content.StaticDailySeesOnlyPreview | index.js:445-451 | for a fixed name, two static daily texts are equal exactly when the goals agree on their first 50 characters |
| Content.StaticDaily | index.js:445-451 | the static daily text is longer than the name and the 50-character goals preview together, so it is never empty, and it quotes both |
| Format.CloseAt | index.js:459 | the lazy `(.*?)\*\*` search, when it succeeds, finds a closing `**` at or after the opening one with no line terminator before it |
| Format.CloseAtLeftmost | index.js:459 | the closing `**` found is the first one: no `**` starts between the search start and it |
| Format.CloseAtNone | index.js:459 | the search fails only when every later `**` has a line terminator before it |
| Format.CloseAtComplete | index.js:459 | a closing `**` with no line terminator before it is always found |
| Format.Emphasize | index.js:459 | the output of the bold replace holds a newline exactly when its input does |
| Format.EmphasizeKeepsBreaks | index.js:459 | the bold replace neither adds nor removes a line break: the output holds exactly as many newlines as the input |
| Format.EmphasizeReadBack | index.js:459 | for text containing no `<`, reading each `<strong>` and `</strong>` back as `**` recovers the input, so the bold replace changes only the markers |
| Format.BreakLines | index.js:460 | after the newline replace no `\n` remains; text without `\n` is unchanged; for text containing no `<`, reading each `<br>` back as a newline recovers the input, so each newline becomes one `<br>`; together with `BreakLinesAppend` this fixes the output on every input |
| Format.BreakLinesAppend | index.js:460 | the newline replace works piece by piece: replacing in two pieces and joining them equals replacing in the joined text, so nothing but newlines is touched |
| Format.FormatContent | index.js:458-460 | the formatted copy contains no `\n` |
| Format.FormatPairStep | index.js:458-460 | a `**...**` pair at the front becomes one `<strong>` element, and formatting resumes after the closing `**` |
| Format.FormatCharStep | index.js:458-460 | with no pair at the front, the first character is copied, or turned into `<br>` if it is a newline |
| Format.FormatRoundTrip | index.js:458-460 | for text containing no `<`, reading each `<strong>`, `</strong>` and `<br>` back as `**`, `**` and a newline recovers the input exactly, so the formatter only replaces markup |
| Format.EmphasizePairStep | index.js:459 | a leading `**` whose lazy search finds a closing `**` at k becomes `<strong>` around everything between them (which may hold single `*`s), and the replace resumes after the closing `**` |
| Format.EmphasizeWithoutMarkers | index.js:459 | text containing no `**` is left alone by the bold replace |
| Format.PlainTextUnchanged | index.js:458-460 | text with no `**` and no newline is returned unchanged |
| Format.PairBecomesStrong | index.js:459 | the simple case: `**w**` where w holds no `*` and no line break becomes `<strong>w</strong>` |
| Format.UnpairedMarkerKept | index.js:459 | an opening `**` with no closing `**` on its line is copied as it is |
| Handlers.Route | index.js:34-57 | OPTIONS is answered first whatever the path; each API route needs its exact path and verb; everything else gets the 200 banner |
| Handlers.HealthResponse | index.js:47-55 | the health report lists the providers in failover order and the AI backends in welcome order |
| Handlers.SaveToGoogleSheets | index.js:150-167 | the store's answer is passed on with its `success` and `error` unchanged; a thrown store call becomes `{success: false, error: message}`; only a `null` body yields no object |
| Handlers.HandleSubmit | index.js:69-107 | success happens exactly when the request parses and the store answers with a truthy `success`; a success returns 200 with the fixed message and starts one welcome send for the submitted user; any other outcome returns 500 with the store's or parser's error and starts no send |
| Handlers.AtMostOneWelcome | index.js:76-96 | a submission starts at most one welcome send, and starts one exactly when the response is 200 |
| Handlers.Subject | index.js:235-237 | both subjects name the user, and the daily subject carries the date |
| Handlers.SendWelcomeEmail | index.js:181-201 | the welcome goes to the user's address with the welcome subject; its copy is exactly the formatter's output for the generated welcome text, so it has no newline and reads back to that text; failover decides the delivery |
| Handlers.SendUserEmail | index.js:204-224 | the daily e-mail goes to the user's address with the daily subject; its copy is exactly the formatter's output for the generated daily text, so it has no newline and reads back to that text; failover decides the delivery |
| Handlers.OrDefault | index.js:603-606 | `nombre || fallback` keeps a non-empty name and replaces an empty one |
| Handlers.HandleSendTest | index.js:599-621 | an unparsable body gives 500 and no send; otherwise the fixed test copy is sent through failover and its result is returned with status 200; the subject is the welcome subject for `nombre || 'Usuario'`; an empty name is greeted as "Test User" and addressed as "Usuario" in the subject |

## Left out

- HTTP transport is not modelled: `fetch` calls, JSON encoding and decoding, CORS headers, `Response` objects, Basic-auth encoding and environment secrets. Each call is replaced by an outcome value.
- AI prompt texts and the provider response envelopes (`choices[0]...`, `candidates[0]...`) are not modelled. An envelope that yields `undefined` without throwing is not modelled either; the worker would then throw inside the formatter and skip that send.
- The 2-second `setTimeout` and the `Promise.all` fan-out inside a batch are not modelled. The plan records the batches and the number of pauses, not timing or interleavings.
- The per-user result inside a batch is not carried into the plan, because every failure is caught and only logged. The per-user send is `Handlers.SendUserEmail`.
- The `scheduled` cron hook, `ctx.waitUntil`, and the fact that the welcome send is not awaited are left out. The model records only which welcome sends are started.
- `new Date()`, `getDay()` and `toLocaleDateString('es-ES', ...)` depend on the host clock and locale. Their results are parameters.
- The static HTML and CSS bodies of both templates are presentation. A `Message` carries the recipient, subject, greeted name and formatted copy.
- Strings are sequences of Unicode characters, while JavaScript counts UTF-16 code units. `substring(0, 50)` on goals containing characters outside the Basic Multilingual Plane can therefore cut at a different place.
- JavaScript truthiness of the store's `success` field is reduced to a boolean.
- A request field that is missing is modelled as the empty string. The worker behaves differently:
  - it renders a missing field as the text `undefined` in both templates and in the subject;
  - a missing `objetivos` makes `objetivos.substring` throw at index.js:447. That line is inside the last `catch` of `generateDailyContent`, so the error reaches the `catch` at index.js:221 and no daily e-mail is sent, where the model sends the static text.
- Format.BreakLines: the read-back is stated only for text containing no `<`, because text that already holds `<br>` cannot be told apart from the formatter's own tag.
- Format.EmphasizeReadBack: the read-back is stated only for text containing no `<`, for the same reason.
- Format.FormatRoundTrip: the read-back is stated only for text containing no `<`. Text that already holds `<strong>` or `<br>` cannot be told apart from the formatter's own tags.
- Handlers.SendWelcomeEmail: the read-back of the formatted copy is stated only for generated text containing no `<`, for the same reason.
- Handlers.SendUserEmail: the read-back of the formatted copy is stated only for generated text containing no `<`, for the same reason.
- Handlers.HandleSubmit: the `null`-body error text is V8's message for reading `success` of `null`, written as a constant.
- The React form (`App.js`) and the logo list (`logos.js`) are UI and static data; they are not part of this model.

=== FILE: common.dfy ===
/** Small value types and sequence facts shared by the other modules. */
module Common {

  /** A value that may be absent, standing in for JavaScript's `undefined` and for a call that threw. */
  datatype Option<+T> = None | Some(value: T)

  function Min(a: int, b: int): int
  {
    if a <= b then a else b
  }

  /** `needle` occurs somewhere inside `hay` as a contiguous run. */
  predicate Contains(hay: string, needle: string)
    decreases |hay|
  {
    needle <= hay || (|hay| > 0 && Contains(hay[1..], needle))
  }

  /** Whatever surrounds a string, the surrounding text contains it. */
  lemma {:induction false} ContainsInfix(a: string, needle: string, b: string)
    ensures Contains(a + needle + b, needle)
    decreases |a|
  {
    if |a| == 0 {
      assert a + needle + b == needle + b;
    } else {
      assert (a + needle + b)[1..] == a[1..] + needle + b;
      ContainsInfix(a[1..], needle, b);
    }
  }

  /** A template `a x b y c` contains both of its holes `x` and `y`. */
  lemma TemplateContains(a: string, x: string, b: string, y: string, c: string)
    ensures Contains(a + x + b + y + c, x) && Contains(a + x + b + y + c, y)
  {
    assert a + x + b + y + c == a + x + (b + y + c);
    ContainsInfix(a, x, b + y + c);
    ContainsInfix(a + x + b, y, c);
  }

  /** With the same text around them, two holes give the same string exactly when they are equal. */
  lemma InfixCancel(p: string, t1: string, t2: string, q: string)
    ensures p + t1 + q == p + t2 + q <==> t1 == t2
  {
    if p + t1 + q == p + t2 + q {
      assert |t1| == |t2|;
      assert t1 == (p + t1 + q)[|p|..|p| + |t1|];
      assert t2 == (p + t2 + q)[|p|..|p| + |t2|];
    }
  }

  /** `sub` can be obtained from `xs` by deleting elements, keeping the order of the rest. */
  predicate IsSubsequence<T(==)>(sub: seq<T>, xs: seq<T>)
    decreases |xs|
  {
    if |sub| == 0 then true
    else if |xs| == 0 then false
    else (sub[0] == xs[0] && IsSubsequence(sub[1..], xs[1..])) || IsSubsequence(sub, xs[1..])
  }
}

=== FILE: content.dfy ===
/**
 * `generateWelcomeMessage` and `generateDailyContent`: ask two AI backends in a
 * fixed order and fall back to a static template built from the user's name and
 * goals. Each backend's answer is given as input: `Some(text)` when the envelope
 * unwrapped to a string, `None` when the request or the unwrapping threw.
 */
module Content {
  import opened Common

  datatype Backend = DeepSeek | Gemini

  /** What each backend would answer if asked. */
  datatype Answers = Answers(deepSeek: Option<string>, gemini: Option<string>)
  {
    function Of(b: Backend): Option<string>
    {
      match b
      case DeepSeek => deepSeek
      case Gemini => gemini
    }
  }

  datatype Source = FromBackend(backend: Backend) | StaticFallback

  /** The text produced and where it came from. */
  datatype Generated = Generated(text: string, source: Source)

  /** Welcome copy asks DeepSeek first; daily copy asks Gemini first. */
  const WelcomeOrder: seq<Backend> := [DeepSeek, Gemini]
  const DailyOrder: seq<Backend> := [Gemini, DeepSeek]

  /** Number of leading characters of the goals the daily fallback quotes. */
  const GoalsPreview: nat := 50

  /**
   * The ordered fallback both generators follow: the first backend in `order`
   * with an answer supplies the text, and with none the fallback is used.
   */
  function FirstAnswer(order: seq<Backend>, a: Answers, fallback: string): (g: Generated)
    ensures g.source.StaticFallback? <==> forall i :: 0 <= i < |order| ==> a.Of(order[i]).None?
    ensures g.source.StaticFallback? ==> g.text == fallback
    ensures g.source.FromBackend? ==>
              exists i :: 0 <= i < |order| && order[i] == g.source.backend && a.Of(order[i]) == Some(g.text) &&
                          forall j :: 0 <= j < i ==> a.Of(order[j]).None?
    decreases |order|
  {
    if |order| == 0 then Generated(fallback, StaticFallback)
    else match a.Of(order[0])
      case Some(t) => Generated(t, FromBackend(order[0]))
      case None =>
        var g := FirstAnswer(order[1..], a, fallback);
        if g.source.FromBackend? then
          var i :| 0 <= i < |order| - 1 && order[1..][i] == g.source.backend && a.Of(order[1..][i]) == Some(g.text) &&
                   forall j :: 0 <= j < i ==> a.Of(order[1..][j]).None?;
          assert order[i + 1] == g.source.backend && forall j :: 0 <= j < i + 1 ==> a.Of(order[j]).None?;
          g
        else
          g
  }

  const WelcomeHead := "¡Hola "
  const WelcomeMid := "! Bienvenido/a a Vision Board 2026. Estamos emocionados de acompañarte en el logro de tus objetivos: \""
  const WelcomeTail := "\". Tu primer paso hoy: dedica 15 minutos a planificar tu semana. ¡Vamos!"

  /** The welcome fallback (index.js line 388): never empty, and it quotes the name and the goals. */
  function StaticWelcome(nombre: string, objetivos: string): (r: string)
    ensures |r| > |nombre| + |objetivos|
    ensures Contains(r, nombre) && Contains(r, objetivos)
  {
    TemplateContains(WelcomeHead, nombre, WelcomeMid, objetivos, WelcomeTail);
    WelcomeHead + nombre + WelcomeMid + objetivos + WelcomeTail
  }

  /** `s.substring(0, n)` for a non-negative `n`: at most the first `n` characters. */
  function Truncate(s: string, n: nat): (r: string)
    ensures |r| == Min(n, |s|) && r <= s
  {
    if |s| <= n then s else s[..n]
  }

  const DailyHead := "**¡Buen día "
  const DailyMid := "!** \U{1F305}\n\n**Tarea de hoy:** Dedica 10 minutos a avanzar en: \""
  const DailyTail := "...\"\n\n**Consejo:** La constancia supera a la intensidad.\n\n**Pregunta:** ¿Qué pequeño paso puedes dar hoy?"

  /**
   * The daily fallback (index.js lines 445-451): never empty, and it quotes the
   * name and only the first 50 characters of the goals.
   */
  function StaticDaily(nombre: string, objetivos: string): (r: string)
    ensures |r| > |nombre| + |Truncate(objetivos, GoalsPreview)|
    ensures Contains(r, nombre) && Contains(r, Truncate(objetivos, GoalsPreview))
  {
    TemplateContains(DailyHead, nombre, DailyMid, Truncate(objetivos, GoalsPreview), DailyTail);
    DailyHead + nombre + DailyMid + Truncate(objetivos, GoalsPreview) + DailyTail
  }

  /**
   * For a fixed name, two daily fallbacks are equal exactly when the goals agree
   * on their first 50 characters: the template embeds that preview and nothing
   * else of the goals.
   */
  lemma StaticDailySeesOnlyPreview(nombre: string, o1: string, o2: string)
    ensures StaticDaily(nombre, o1) == StaticDaily(nombre, o2) <==> Truncate(o1, GoalsPreview) == Truncate(o2, GoalsPreview)
  {
    InfixCancel(DailyHead + nombre + DailyMid, Truncate(o1, GoalsPreview), Truncate(o2, GoalsPreview), DailyTail);
  }

  /** `generateWelcomeMessage`: DeepSeek, else Gemini, else the static welcome. */
  function GenerateWelcomeMessage(nombre: string, objetivos: string, a: Answers): (g: Generated)
    ensures a.deepSeek.Some? ==> g == Generated(a.deepSeek.value, FromBackend(DeepSeek))
    ensures a.deepSeek.None? && a.gemini.Some? ==> g == Generated(a.gemini.value, FromBackend(Gemini))
    ensures a.deepSeek.None? && a.gemini.None? ==> g == Generated(StaticWelcome(nombre, objetivos), StaticFallback)
  {
    FirstAnswer(WelcomeOrder, a, StaticWelcome(nombre, objetivos))
  }

  /** `generateDailyContent`: Gemini, else DeepSeek, else the static daily text. */
  function GenerateDailyContent(objetivos: string, nombre: string, a: Answers): (g: Generated)
    ensures a.gemini.Some? ==> g == Generated(a.gemini.value, FromBackend(Gemini))
    ensures a.gemini.None? && a.deepSeek.Some? ==> g == Generated(a.deepSeek.value, FromBackend(DeepSeek))
    ensures a.gemini.None? && a.deepSeek.None? ==> g == Generated(StaticDaily(nombre, objetivos), StaticFallback)
  {
    FirstAnswer(DailyOrder, a, StaticDaily(nombre, objetivos))
  }
}

=== FILE: days.dfy ===
/** The worker's table from Spanish weekday labels to `Date.prototype.getDay` numbers. */
module Days {
  import opened Common

  /** A weekday as `getDay` numbers it: 0 is Sunday, 6 is Saturday. */
  type Weekday = d: int | 0 <= d < 7

  /** `DAYS_MAP`: the seven labels a registration may carry. */
  const DaysMap: map<string, Weekday> := map[
    "Lunes" := 1,
    "Martes" := 2,
    "Miércoles" := 3,
    "Jueves" := 4,
    "Viernes" := 5,
    "Sábado" := 6,
    "Domingo" := 0
  ]

  /**
   * `DAYS_MAP[name]`: the weekday number of one of the seven labels, and no weekday
   * number for any other string. A known label is exactly the one `DayLabel` gives
   * back for its number.
   */
  function DayIndex(name: string): (r: Option<Weekday>)
    ensures r.None? <==> name !in DaysMap
    ensures r.Some? ==> DayLabel(r.value) == name
  {
    if name in DaysMap then Some(DaysMap[name]) else None
  }

  /** The name naming weekday `d`: the table read backwards. */
  function DayLabel(d: Weekday): (name: string)
    ensures name in DaysMap && DaysMap[name] == d
  {
    if d == 0 then "Domingo"
    else if d == 1 then "Lunes"
    else if d == 2 then "Martes"
    else if d == 3 then "Miércoles"
    else if d == 4 then "Jueves"
    else if d == 5 then "Viernes"
    else "Sábado"
  }

  /** Two labels that map to the same weekday are the same name. */
  lemma DayIndexInjective(a: string, b: string)
    requires DayIndex(a).Some? && DayIndex(a) == DayIndex(b)
    ensures a == b
  {
  }
}

=== FILE: failover.dfy ===
/**
 * `sendEmailWithService`: one message is offered to SendGrid, then Mailjet, then
 * Resend, strictly in that order, stopping at the first provider that reports
 * success. Each provider call is an outcome given as input.
 */
module Failover {
  import opened Common

  datatype Provider = SendGrid | Mailjet | Resend

  /** The fixed order in which providers are tried. */
  const FailoverOrder: seq<Provider> := [SendGrid, Mailjet, Resend]

  /**
   * What one provider call does: the HTTP response was 2xx, it was not (with the
   * error text read from the body), or the call threw before returning.
   */
  datatype ProviderOutcome = Ok | NotOk(detail: string) | Threw

  /** The outcome each provider would give if it were called. */
  datatype Outcomes = Outcomes(sendGrid: ProviderOutcome, mailjet: ProviderOutcome, resend: ProviderOutcome)
  {
    function Of(p: Provider): ProviderOutcome
    {
      match p
      case SendGrid => sendGrid
      case Mailjet => mailjet
      case Resend => resend
    }
  }

  /** `{ success, error }`; `error` is `null` on success. */
  datatype SendResult = SendResult(success: bool, error: Option<string>)

  /** The result handed back, and the providers called, in call order. */
  datatype Dispatch = Dispatch(result: SendResult, attempts: seq<Provider>)

  /** The error returned when Resend, the last provider, throws. */
  const AllFailed := "Todos los servicios fallaron"

  /** The `{ success, error }` object a provider function returns when it does not throw. */
  function Reply(o: ProviderOutcome): (r: SendResult)
    requires !o.Threw?
    ensures r.success <==> o.Ok?
    ensures r.error.None? <==> o.Ok?
    ensures o.NotOk? ==> r.error == Some(o.detail)
  {
    match o
    case Ok => SendResult(true, None)
    case NotOk(detail) => SendResult(false, Some(detail))
  }

  function SendEmailWithService(o: Outcomes): (d: Dispatch)
    ensures 1 <= |d.attempts| <= |FailoverOrder|
    ensures d.attempts <= FailoverOrder
    ensures d.result.success <==> exists i :: 0 <= i < |d.attempts| && o.Of(d.attempts[i]) == Ok
    ensures forall i :: 0 <= i < |d.attempts| - 1 ==> o.Of(d.attempts[i]) != Ok
    ensures o.Of(d.attempts[|d.attempts| - 1]) != Ok ==> d.attempts == FailoverOrder
    ensures o.sendGrid == Ok ==> d.attempts == [SendGrid]
    ensures d.result.success ==> d.result.error.None?
    ensures !d.result.success && o.resend.NotOk? ==> d.result.error == Some(o.resend.detail)
    ensures !d.result.success && o.resend.Threw? ==> d.result.error == Some(AllFailed)
  {
    if o.sendGrid == Ok then
      var d := Dispatch(Reply(Ok), [SendGrid]);
      assert o.Of(d.attempts[0]) == Ok;
      d
    else if o.mailjet == Ok then
      var d := Dispatch(Reply(Ok), [SendGrid, Mailjet]);
      assert o.Of(d.attempts[1]) == Ok;
      d
    else if o.resend.Threw? then Dispatch(SendResult(false, Some(AllFailed)), FailoverOrder)
    else
      var d := Dispatch(Reply(o.resend), FailoverOrder);
      assert o.Of(d.attempts[2]) == o.resend;
      d
  }

  /** Providers that are never called cannot influence the result: only the attempted prefix matters. */
  lemma UnattemptedProvidersIrrelevant(o: Outcomes, o': Outcomes)
    requires forall p :: p in SendEmailWithService(o).attempts ==> o.Of(p) == o'.Of(p)
    ensures SendEmailWithService(o') == SendEmailWithService(o)
  {
    var d := SendEmailWithService(o);
    assert d.attempts[0] == SendGrid;
    if o.sendGrid != Ok {
      assert d.attempts[1] == Mailjet;
      if o.mailjet != Ok {
        assert d.attempts[2] == Resend;
      }
    }
  }

  /** Two failures and a Resend success: three calls in order, and the message is delivered. */
  lemma ThirdProviderDelivers(e1: string, e2: string)
    ensures SendEmailWithService(Outcomes(NotOk(e1), Threw, Ok)) == Dispatch(SendResult(true, None), FailoverOrder)
  {
  }
}

=== FILE: format.dfy ===
// The formatter both e-mail templates apply to generated text: the global replace
// of `/\*\*(.*?)\*\*/g` by `<strong>$1</strong>`, followed by the global replace
// of `/\n/g` by `<br>`. (A line comment, because the pattern itself holds the
// characters that would end a block comment.)
module Format {
  import opened Common

  /** The characters a JavaScript `.` does not match. */
  predicate IsLineTerminator(c: char)
  {
    c == '\n' || c == '\r' || c == '\U{2028}' || c == '\U{2029}'
  }

  /** A `**` marker starts at index `j` of `s`. */
  predicate PairAt(s: string, j: int)
  {
    0 <= j && j + 1 < |s| && s[j] == '*' && s[j + 1] == '*'
  }

  /** `s[a..b]` can be consumed by `.*`: it holds no line terminator. */
  predicate Dotted(s: string, a: int, b: int)
    requires 0 <= a <= b <= |s|
  {
    forall i :: a <= i < b ==> !IsLineTerminator(s[i])
  }

  /**
   * The lazy `(.*?)\*\*` search from index `k`: the first index at or after `k` where
   * a closing `**` starts with no line terminator before it, if any.
   */
  function CloseAt(s: string, k: nat): (r: Option<nat>)
    requires k <= |s|
    ensures r.Some? ==> k <= r.value && PairAt(s, r.value) && Dotted(s, k, r.value)
    decreases |s| - k
  {
    if PairAt(s, k) then Some(k)
    else if k < |s| && !IsLineTerminator(s[k]) then CloseAt(s, k + 1)
    else None
  }

  /** The search is lazy: no `**` starts between `k` and the one it finds. */
  lemma {:induction false} CloseAtLeftmost(s: string, k: nat)
    requires k <= |s| && CloseAt(s, k).Some?
    ensures forall j :: k <= j < CloseAt(s, k).value ==> !PairAt(s, j)
    decreases |s| - k
  {
    if !PairAt(s, k) {
      CloseAtLeftmost(s, k + 1);
    }
  }

  /** The search fails only when every later `**` has a line terminator before it. */
  lemma {:induction false} CloseAtNone(s: string, k: nat)
    requires k <= |s| && CloseAt(s, k).None?
    ensures forall j :: k <= j && PairAt(s, j) ==> !Dotted(s, k, j)
    decreases |s| - k
  {
    if k < |s| && !IsLineTerminator(s[k]) {
      CloseAtNone(s, k + 1);
      forall j | k <= j && PairAt(s, j) ensures !Dotted(s, k, j) {
        if j > k {
          assert !Dotted(s, k + 1, j);
        }
      }
    }
  }

  /** A closing `**` with no line terminator before it is always found. */
  lemma CloseAtComplete(s: string, k: nat, j: nat)
    requires k <= j && PairAt(s, j) && Dotted(s, k, j)
    ensures CloseAt(s, k).Some?
  {
    if CloseAt(s, k).None? {
      CloseAtNone(s, k);
    }
  }

  /**
   * The first `replace`: every leftmost-first `**...**` pair on one line becomes
   * `<strong>...</strong>`. The output holds a newline exactly when the input does;
   * `EmphasizeKeepsBreaks` shows the number of newlines is the same too.
   */
  function Emphasize(s: string): (r: string)
    ensures '\n' in r <==> '\n' in s
    decreases |s|
  {
    if |s| == 0 then []
    else if PairAt(s, 0) && CloseAt(s, 2).Some? then
      var k := CloseAt(s, 2).value;
      var e := Emphasize(s[k + 2..]);
      StrongKeepsBreaks(s, k, e);
      "<strong>" + s[2..k] + "</strong>" + e
    else
      var e := Emphasize(s[1..]);
      assert s == [s[0]] + s[1..];
      [s[0]] + e
  }

  /** A `<strong>` element in front of a tail with the same line breaks as the rest has the pair's line breaks. */
  lemma StrongKeepsBreaks(s: string, k: nat, e: string)
    requires PairAt(s, 0) && CloseAt(s, 2) == Some(k)
    requires '\n' in e <==> '\n' in s[k + 2..]
    ensures '\n' in "<strong>" + s[2..k] + "</strong>" + e <==> '\n' in s
  {
    NoNewlineInPair(s, k);
    PairSplit(s, k);
    var open, close := "<strong>", "</strong>";
    assert '\n' !in open by {
      assert open == ['<', 's', 't', 'r', 'o', 'n', 'g', '>'];
    }
    assert '\n' !in close by {
      assert close == ['<', '/', 's', 't', 'r', 'o', 'n', 'g', '>'];
    }

    assert '\n' !in "**";
  }

  /**
   * The first `replace` changes nothing but the markers: in text without `<`,
   * turning each `<strong>` and `</strong>` back into `**` restores the input.
   */
  lemma {:induction false} EmphasizeReadBack(s: string)
    requires '<' !in s
    ensures Unformat(Emphasize(s)) == s
    decreases |s|
  {
    if |s| > 0 {
      if PairAt(s, 0) && CloseAt(s, 2).Some? {
        var k := CloseAt(s, 2).value;
        NoAngleInSlice(s, k + 2, |s|);
        EmphasizeReadBack(s[k + 2..]);
        EmphasizePairStep(s, k);
        StrongReadBack(s, k, Emphasize(s[k + 2..]));
      } else {
        NoAngleInSlice(s, 1, |s|);
        EmphasizeReadBack(s[1..]);
        assert Emphasize(s) == [s[0]] + Emphasize(s[1..]);
        CharReadBack(s, Emphasize(s[1..]));
      }
    }
  }

  /** The bold replace neither adds nor removes a line break: the output holds as many newlines as the input. */
  lemma {:induction false} EmphasizeKeepsBreaks(s: string)
    ensures multiset(Emphasize(s))['\n'] == multiset(s)['\n']
    decreases |s|
  {
    if |s| > 0 {
      if PairAt(s, 0) && CloseAt(s, 2).Some? {
        var k := CloseAt(s, 2).value;
        EmphasizeKeepsBreaks(s[k + 2..]);
        EmphasizePairStep(s, k);
        StrongCountsBreaks(s, k, Emphasize(s[k + 2..]));
      } else {
        EmphasizeKeepsBreaks(s[1..]);
        assert Emphasize(s) == [s[0]] + Emphasize(s[1..]);
        assert s == [s[0]] + s[1..];
      }
    }
  }

  /** A `<strong>` element in front of a tail with as many newlines as the rest has as many newlines as the pair. */
  lemma StrongCountsBreaks(s: string, k: nat, e: string)
    requires PairAt(s, 0) && CloseAt(s, 2) == Some(k)
    requires multiset(e)['\n'] == multiset(s[k + 2..])['\n']
    ensures multiset("<strong>" + s[2..k] + "</strong>" + e)['\n'] == multiset(s)['\n']
  {
    var inner, rest := s[2..k], s[k + 2..];
    NoNewlineInPair(s, k);
    PairSplit(s, k);
    var open, close := "<strong>", "</strong>";
    assert '\n' !in open by {
      assert open == ['<', 's', 't', 'r', 'o', 'n', 'g', '>'];
    }
    assert '\n' !in close by {
      assert close == ['<', '/', 's', 't', 'r', 'o', 'n', 'g', '>'];
    }
    assert '\n' !in "**" + inner + "**";
    assert '\n' !in open + inner + close;
    BreakCount("**" + inner + "**", rest);
    BreakCount(open + inner + close, e);
  }

  /** Text with no newline in front adds no newline to the count. */
  lemma BreakCount(a: string, b: string)
    requires '\n' !in a
    ensures multiset(a + b)['\n'] == multiset(b)['\n']
  {
    assert multiset(a + b) == multiset(a) + multiset(b);
    assert multiset(a)['\n'] == 0;
  }

  /** One `<strong>` element in front of a tail that reads back reads back as the whole pair. */
  lemma StrongReadBack(s: string, k: nat, e: string)
    requires PairAt(s, 0) && CloseAt(s, 2) == Some(k)
    requires '<' !in s[k + 2..] ==> Unformat(e) == s[k + 2..]
    ensures '<' !in s ==> Unformat("<strong>" + s[2..k] + "</strong>" + e) == s
  {
    if '<' !in s {
      NoAngleInSlice(s, 2, k);
      NoAngleInSlice(s, k + 2, |s|);
      UnformatStrong(s[2..k], e);
      PairSplit(s, k);
    }
  }

  /** One copied character in front of a tail that reads back reads back as the whole text. */
  lemma CharReadBack(s: string, e: string)
    requires |s| > 0
    requires '<' !in s[1..] ==> Unformat(e) == s[1..]
    ensures '<' !in s ==> Unformat([s[0]] + e) == s
  {
    if '<' !in s {
      NoAngleInSlice(s, 1, |s|);
      UnformatPlain([s[0]], e);
      assert s == [s[0]] + s[1..];
    }
  }

  /**
   * The second `replace`: every `\n` becomes `<br>` and every other character is
   * kept. In text without `<`, turning each `<br>` back into a newline restores the input.
   */
  function BreakLines(s: string): (r: string)
    ensures '\n' !in r
    ensures '\n' !in s ==> r == s
    ensures '<' !in s ==> Unformat(r) == s
    decreases |s|
  {
    if |s| == 0 then []
    else if s[0] == '\n' then
      var b := BreakLines(s[1..]);
      BreakReadBack(s, b);
      "<br>" + b
    else
      var b := BreakLines(s[1..]);
      CharReadBack(s, b);
      [s[0]] + b
  }

  /** A `<br>` in front of a tail that reads back reads back as the newline and the tail. */
  lemma BreakReadBack(s: string, b: string)
    requires |s| > 0 && s[0] == '\n'
    requires '<' !in s[1..] ==> Unformat(b) == s[1..]
    ensures '<' !in s ==> Unformat("<br>" + b) == s
  {
    if '<' !in s {
      NoAngleInSlice(s, 1, |s|);
      UnformatBreak(b);
      assert s == [s[0]] + s[1..];
    }
  }

  /** The full formatter; its output never holds a newline. */
  function FormatContent(s: string): (r: string)
    ensures '\n' !in r
  {
    BreakLines(Emphasize(s))
  }

  /** The reverse reading of the markup: each tag goes back to the text it replaced. */
  function Unformat(t: string): string
    decreases |t|
  {
    if |t| == 0 then []
    else if t[0] != '<' then [t[0]] + Unformat(t[1..])
    else if "<strong>" <= t then "**" + Unformat(t[8..])
    else if "</strong>" <= t then "**" + Unformat(t[9..])
    else if "<br>" <= t then "\n" + Unformat(t[4..])
    else [t[0]] + Unformat(t[1..])
  }

  /**
   * The newline replace works character by character: formatting two pieces and
   * joining them is formatting the joined text. With the single-character cases of
   * `BreakLines`, this fixes its output on every input.
   */
  lemma {:induction false} BreakLinesAppend(a: string, b: string)
    ensures BreakLines(a + b) == BreakLines(a) + BreakLines(b)
    decreases |a|
  {
    if |a| > 0 {
      var ab := a + b;
      assert ab[0] == a[0];
      assert ab[1..] == a[1..] + b;
      BreakLinesAppend(a[1..], b);
      if a[0] == '\n' {
        assert BreakLines(ab) == "<br>" + BreakLines(ab[1..]);
        assert BreakLines(a) == "<br>" + BreakLines(a[1..]);
      } else {
        assert BreakLines(ab) == [a[0]] + BreakLines(ab[1..]);
        assert BreakLines(a) == [a[0]] + BreakLines(a[1..]);
      }
    } else {
      assert a + b == b;
    }
  }

  /** Text with no `<` passes through `Unformat` unchanged in front of anything. */
  lemma {:induction false} UnformatPlain(a: string, t: string)
    requires '<' !in a
    ensures Unformat(a + t) == a + Unformat(t)
    decreases |a|
  {
    if |a| > 0 {
      var at := a + t;
      assert at[0] == a[0] != '<';
      assert at[1..] == a[1..] + t;
      UnformatPlain(a[1..], t);
    } else {
      assert a + t == t;
    }
  }

  /** A matched pair at the front: the formatter emits one `<strong>` element and continues after the pair. */
  lemma FormatPairStep(s: string, k: nat)
    requires PairAt(s, 0) && CloseAt(s, 2) == Some(k)
    ensures FormatContent(s) == "<strong>" + s[2..k] + "</strong>" + FormatContent(s[k + 2..])
  {
    var inner, tail := s[2..k], s[k + 2..];
    EmphasizePairStep(s, k);
    NoNewlineInPair(s, k);
    BreakLinesAroundStrong(inner, Emphasize(tail));
  }

  lemma EmphasizePairStep(s: string, k: nat)
    requires PairAt(s, 0) && CloseAt(s, 2) == Some(k)
    ensures Emphasize(s) == "<strong>" + s[2..k] + "</strong>" + Emphasize(s[k + 2..])
  {
  }

  lemma NoNewlineInPair(s: string, k: nat)
    requires PairAt(s, 0) && CloseAt(s, 2) == Some(k)
    ensures '\n' !in s[2..k]
  {
    forall i | 0 <= i < k - 2 ensures s[2..k][i] != '\n' {
      assert s[2..k][i] == s[2 + i];
    }
  }

  /** The newline replace leaves a `<strong>` element around newline-free text untouched. */
  lemma BreakLinesAroundStrong(inner: string, e: string)
    requires '\n' !in inner
    ensures BreakLines("<strong>" + inner + "</strong>" + e) == "<strong>" + inner + "</strong>" + BreakLines(e)
  {
    var open, close := "<strong>", "</strong>";
    assert '\n' !in open by {
      assert open == ['<', 's', 't', 'r', 'o', 'n', 'g', '>'];
    }
    assert '\n' !in close by {
      assert close == ['<', '/', 's', 't', 'r', 'o', 'n', 'g', '>'];
    }
    BreakLinesAppend(open + inner + close, e);
    BreakLinesAppend(open + inner, close);
    BreakLinesAppend(open, inner);
  }

  /** No matched pair at the front: the first character is copied, or turned into `<br>` if it is a newline. */
  lemma FormatCharStep(s: string)
    requires |s| > 0 && !(PairAt(s, 0) && CloseAt(s, 2).Some?)
    ensures FormatContent(s) == (if s[0] == '\n' then "<br>" else [s[0]]) + FormatContent(s[1..])
  {
    assert Emphasize(s) == [s[0]] + Emphasize(s[1..]);
    BreakLinesAppend([s[0]], Emphasize(s[1..]));
  }

  /** A `<strong>` element around plain text reads back as the `**` pair it came from. */
  lemma UnformatStrong(inner: string, u: string)
    requires '<' !in inner
    ensures Unformat("<strong>" + inner + "</strong>" + u) == "**" + inner + "**" + Unformat(u)
  {
    var closing := "</strong>" + u;
    assert "<strong>" + inner + "</strong>" + u == "<strong>" + (inner + closing);
    UnformatOpenTag(inner + closing);
    UnformatPlain(inner, closing);
    UnformatCloseTag(u);
  }

  lemma UnformatOpenTag(v: string)
    ensures Unformat("<strong>" + v) == "**" + Unformat(v)
  {
    var t := "<strong>" + v;
    assert t[0] == '<' && "<strong>" <= t;
    assert t[8..] == v;
  }

  lemma UnformatCloseTag(u: string)
    ensures Unformat("</strong>" + u) == "**" + Unformat(u)
  {
    var t := "</strong>" + u;
    assert t[0] == '<' && t[1] == '/';
    assert !("<strong>" <= t) && "</strong>" <= t;
    assert t[9..] == u;
  }

  /**
   * The formatter loses nothing: for text that holds no `<`, reading the tags
   * back recovers the original exactly.
   */
  lemma {:induction false} FormatRoundTrip(s: string)
    requires '<' !in s
    ensures Unformat(FormatContent(s)) == s
    decreases |s|
  {
    if |s| > 0 {
      if PairAt(s, 0) && CloseAt(s, 2).Some? {
        var k := CloseAt(s, 2).value;
        var rest := s[k + 2..];
        NoAngleInSlice(s, k + 2, |s|);
        FormatRoundTrip(rest);
        RoundTripPairStep(s, k);
      } else {
        NoAngleInSlice(s, 1, |s|);
        FormatRoundTrip(s[1..]);
        RoundTripCharStep(s);
      }
    }
  }

  lemma NoAngleInSlice(s: string, a: nat, b: nat)
    requires '<' !in s && a <= b <= |s|
    ensures '<' !in s[a..b]
  {
    forall i | 0 <= i < b - a ensures s[a..b][i] != '<' {
      assert s[a..b][i] == s[a + i];
    }
  }

  /** The round trip across one leading `**...**` pair closing at `k`, given it holds for the rest. */
  lemma RoundTripPairStep(s: string, k: nat)
    requires '<' !in s && PairAt(s, 0) && CloseAt(s, 2) == Some(k)
    requires Unformat(FormatContent(s[k + 2..])) == s[k + 2..]
    ensures Unformat(FormatContent(s)) == s
  {
    FormatPairStep(s, k);
    NoAngleInSlice(s, 2, k);
    UnformatStrong(s[2..k], FormatContent(s[k + 2..]));
    PairSplit(s, k);
  }

  lemma PairSplit(s: string, k: nat)
    requires PairAt(s, 0) && CloseAt(s, 2) == Some(k)
    ensures s == "**" + s[2..k] + "**" + s[k + 2..]
  {
    assert s[..2] == "**" && s[k..k + 2] == "**";
    assert s == s[..2] + s[2..k] + s[k..k + 2] + s[k + 2..];
  }

  /** The round trip across one leading character, given it holds for the rest. */
  lemma RoundTripCharStep(s: string)
    requires '<' !in s && |s| > 0 && !(PairAt(s, 0) && CloseAt(s, 2).Some?)
    requires Unformat(FormatContent(s[1..])) == s[1..]
    ensures Unformat(FormatContent(s)) == s
  {
    FormatCharStep(s);
    var u := FormatContent(s[1..]);
    if s[0] == '\n' {
      UnformatBreak(u);
    } else {
      UnformatPlain([s[0]], u);
    }
  }

  /** A `<br>` reads back as the newline it replaced. */
  lemma UnformatBreak(u: string)
    ensures Unformat("<br>" + u) == "\n" + Unformat(u)
  {
    var t := "<br>" + u;
    assert t[0] == '<' && t[1] == 'b';
    assert !("<strong>" <= t) && !("</strong>" <= t) && "<br>" <= t;
    assert t[4..] == u;
  }

  /** Text without `**` markers is left alone by the first `replace`. */
  lemma {:induction false} EmphasizeWithoutMarkers(s: string)
    requires forall j :: 0 <= j < |s| ==> !PairAt(s, j)
    ensures Emphasize(s) == s
    decreases |s|
  {
    if |s| > 0 {
      assert forall j :: 0 <= j < |s| - 1 ==> (PairAt(s[1..], j) ==> PairAt(s, j + 1));
      EmphasizeWithoutMarkers(s[1..]);
    }
  }

  /** Text with no `**` and no newline is returned unchanged. */
  lemma PlainTextUnchanged(s: string)
    requires forall j :: 0 <= j < |s| ==> !PairAt(s, j)
    requires '\n' !in s
    ensures FormatContent(s) == s
  {
    EmphasizeWithoutMarkers(s);
  }

  /**
   * The simple case of `EmphasizePairStep`: a `**` pair around text with no `*` and
   * no line break becomes one `<strong>` element. The regular expression needs less
   * (`**a*b**` also becomes `<strong>a*b</strong>`); the general step is `EmphasizePairStep`.
   */
  lemma PairBecomesStrong(w: string, rest: string)
    requires forall i :: 0 <= i < |w| ==> w[i] != '*' && !IsLineTerminator(w[i])
    ensures Emphasize("**" + w + "**" + rest) == "<strong>" + w + "</strong>" + Emphasize(rest)
  {
    var s := "**" + w + "**" + rest;
    var k := 2 + |w|;
    assert PairAt(s, k);
    assert Dotted(s, 2, k) by {
      forall i | 2 <= i < k ensures !IsLineTerminator(s[i]) {
        assert s[i] == w[i - 2];
      }
    }
    var c := CloseAt(s, 2);
    assert c.Some? by {
      CloseAtComplete(s, 2, k);
    }
    CloseAtLeftmost(s, 2);
    assert c.value == k;
    assert s[2..k] == w;
    assert s[k + 2..] == rest;
  }

  /** An unpaired `**` (no closing `**` on its line) is copied as it is, and scanning resumes after it. */
  lemma UnpairedMarkerKept(s: string)
    requires PairAt(s, 0) && CloseAt(s, 2).None?
    ensures Emphasize(s) == "**" + Emphasize(s[2..])
  {
    var t := s[1..];
    CloseAtNone(s, 2);
    if PairAt(t, 0) && CloseAt(t, 2).Some? {
      var m := CloseAt(t, 2).value;
      assert PairAt(s, m + 1);
      assert false;
    }
    assert t[1..] == s[2..];
  }
}

=== FILE: handlers.dfy ===
/**
 * The worker's entry points: the route table of `fetch`, registration
 * (`handleSubmit` with `saveToGoogleSheets`), the test send, the health report,
 * and the two send paths that chain content generation, formatting and failover.
 */
module Handlers {
  import opened Common
  import opened Registration
  import opened Failover
  import opened Content
  import opened Format

  datatype Endpoint = Preflight | Submit | SendTest | Health | Banner

  /** The route table: `OPTIONS` is answered first whatever the path; anything unmatched gets the 200 banner. */
  function Route(verb: string, path: string): (e: Endpoint)
    ensures verb == "OPTIONS" ==> e == Preflight
    ensures e == Submit <==> verb == "POST" && path == "/api/submit"
    ensures e == SendTest <==> verb == "POST" && path == "/api/send-test"
    ensures e == Health <==> verb == "GET" && path == "/api/health"
    ensures e == Banner <==>
              verb != "OPTIONS" &&
              !(verb == "POST" && path in {"/api/submit", "/api/send-test"}) &&
              !(verb == "GET" && path == "/api/health")
  {
    if verb == "OPTIONS" then Preflight
    else if path == "/api/submit" && verb == "POST" then Submit
    else if path == "/api/send-test" && verb == "POST" then SendTest
    else if path == "/api/health" && verb == "GET" then Health
    else Banner
  }

  /** The JSON bodies the worker answers with. */
  datatype Body =
    | Succeeded(message: string)
    | Failed(error: Option<string>)
    | Relayed(result: SendResult)
    | HealthReport(status: string, services: seq<string>, aiProviders: seq<string>)

  datatype Response = Response(status: nat, body: Body)

  function ProviderName(p: Provider): string
  {
    match p
    case SendGrid => "sendgrid"
    case Mailjet => "mailjet"
    case Resend => "resend"
  }

  function BackendName(b: Backend): string
  {
    match b
    case DeepSeek => "deepseek"
    case Gemini => "gemini"
  }

  /** `GET /api/health`: the providers are listed in failover order, the AI backends in welcome order. */
  function HealthResponse(): (r: Response)
    ensures r.status == 200 && r.body.HealthReport? && r.body.status == "ok"
    ensures |r.body.services| == |FailoverOrder| &&
            forall i :: 0 <= i < |FailoverOrder| ==> r.body.services[i] == ProviderName(FailoverOrder[i])
    ensures |r.body.aiProviders| == |WelcomeOrder| &&
            forall i :: 0 <= i < |WelcomeOrder| ==> r.body.aiProviders[i] == BackendName(WelcomeOrder[i])
  {
    Response(200, HealthReport("ok", ["sendgrid", "mailjet", "resend"], ["deepseek", "gemini"]))
  }

  /**
   * The request body: a decoded registration, or an error with this message. The
   * error is `request.json()` throwing, or a body that decodes to `null`, whose
   * first field access throws (`data.email` in `handleSubmit`, `data.nombre` in
   * `handleSendTest`).
   */
  datatype RequestBody = Parsed(user: User) | Unparsable(message: string)

  /**
   * The POST to the sheet store: a JSON object carrying a truthy or falsy `success`
   * and maybe an `error`; a `null` body; or a `fetch`/`json()` that threw.
   */
  datatype StoreReply =
    | StoreAnswered(success: bool, error: Option<string>)
    | StoreNull
    | StoreThrew(message: string)

  datatype SaveResult = SaveResult(success: bool, error: Option<string>)

  /** `saveToGoogleSheets`: a thrown call becomes `{success: false, error}`; `None` stands for a `null` body. */
  function SaveToGoogleSheets(reply: StoreReply): (r: Option<SaveResult>)
    ensures r.None? <==> reply.StoreNull?
    ensures reply.StoreAnswered? ==> r == Some(SaveResult(reply.success, reply.error))
    ensures reply.StoreThrew? ==> r == Some(SaveResult(false, Some(reply.message)))
  {
    match reply
    case StoreAnswered(success, error) => Some(SaveResult(success, error))
    case StoreNull => None
    case StoreThrew(message) => Some(SaveResult(false, Some(message)))
  }

  const SubmitMessage := "✅ Registro exitoso. Revisa tu email para el mensaje de bienvenida."

  /** The message `null.success` throws with; the worker's outer `catch` reports it. */
  const NullStoreError := "Cannot read properties of null (reading 'success')"

  /** The response, and the welcome sends started without being awaited. */
  datatype SubmitOutcome = SubmitOutcome(response: Response, welcomes: seq<User>)

  /** `handleSubmit`: store first; only a stored registration starts its one welcome send. */
  function HandleSubmit(request: RequestBody, store: StoreReply): (out: SubmitOutcome)
    ensures out.response.body.Succeeded? <==>
              request.Parsed? && store.StoreAnswered? && store.success
    ensures out.response.body.Succeeded? ==>
              out.response == Response(200, Succeeded(SubmitMessage)) && out.welcomes == [request.user]
    ensures !out.response.body.Succeeded? ==>
              out.response.status == 500 && out.response.body.Failed? && out.welcomes == []
    ensures request.Parsed? && store.StoreThrew? ==> out.response.body == Failed(Some(store.message))
    ensures request.Parsed? && store.StoreAnswered? && !store.success ==> out.response.body == Failed(store.error)
    ensures request.Unparsable? ==> out.response.body == Failed(Some(request.message))
  {
    match request
    case Unparsable(message) => SubmitOutcome(Response(500, Failed(Some(message))), [])
    case Parsed(user) =>
      match SaveToGoogleSheets(store)
      case None => SubmitOutcome(Response(500, Failed(Some(NullStoreError))), [])
      case Some(saved) =>
        if !saved.success then SubmitOutcome(Response(500, Failed(saved.error)), [])
        else SubmitOutcome(Response(200, Succeeded(SubmitMessage)), [user])
  }

  /** At most one welcome send per submission, and none unless the response reports success. */
  lemma AtMostOneWelcome(request: RequestBody, store: StoreReply)
    ensures |HandleSubmit(request, store).welcomes| <= 1
    ensures |HandleSubmit(request, store).welcomes| == 1 <==> HandleSubmit(request, store).response.status == 200
  {
  }

  datatype Kind = Welcome | Daily

  /** The subject line; `date` is the host's long Spanish date, used only by daily messages. */
  function Subject(kind: Kind, nombre: string, date: string): (r: string)
    ensures Contains(r, nombre)
    ensures kind == Daily ==> Contains(r, date)
  {
    match kind
    case Welcome =>
      var r := "🎉 ¡Bienvenido/a " + nombre + " a Vision Board 2026!";
      ContainsInfix("🎉 ¡Bienvenido/a ", nombre, " a Vision Board 2026!");
      r
    case Daily =>
      var r := "🎯 " + nombre + ", tu plan para hoy - " + date;
      ContainsInfix("🎯 ", nombre, ", tu plan para hoy - " + date);
      assert r == "🎯 " + nombre + (", tu plan para hoy - " + date);
      ContainsInfix("🎯 " + nombre + ", tu plan para hoy - ", date, "");
      assert r == "🎯 " + nombre + ", tu plan para hoy - " + date + "";
      r
  }

  /** What is handed to the providers: recipient, subject, the name greeted and the formatted copy. */
  datatype Message = Message(to: string, subject: string, greeting: string, content: string)

  /** The message and what failover did with it. */
  datatype Delivery = Delivery(message: Message, dispatch: Dispatch)

  /** `sendWelcomeEmail`: generate welcome copy, format it, and dispatch it through failover. */
  function SendWelcomeEmail(u: User, a: Answers, o: Outcomes, date: string): (d: Delivery)
    ensures d.message.to == u.email && d.message.greeting == u.nombre
    ensures d.message.subject == Subject(Welcome, u.nombre, date)
    ensures d.message.content == FormatContent(GenerateWelcomeMessage(u.nombre, u.objetivos, a).text)
    ensures '\n' !in d.message.content
    ensures Unformat(d.message.content) == GenerateWelcomeMessage(u.nombre, u.objetivos, a).text ||
            '<' in GenerateWelcomeMessage(u.nombre, u.objetivos, a).text
    ensures d.dispatch == SendEmailWithService(o)
  {
    var text := GenerateWelcomeMessage(u.nombre, u.objetivos, a).text;
    var d := Delivery(Message(u.email, Subject(Welcome, u.nombre, date), u.nombre, FormatContent(text)), SendEmailWithService(o));
    if '<' !in text then FormatRoundTrip(text); d else d
  }

  /** `sendUserEmail`: generate daily copy, format it, and dispatch it through failover. */
  function SendUserEmail(u: User, a: Answers, o: Outcomes, date: string): (d: Delivery)
    ensures d.message.to == u.email && d.message.greeting == u.nombre
    ensures d.message.subject == Subject(Daily, u.nombre, date)
    ensures d.message.content == FormatContent(GenerateDailyContent(u.objetivos, u.nombre, a).text)
    ensures '\n' !in d.message.content
    ensures Unformat(d.message.content) == GenerateDailyContent(u.objetivos, u.nombre, a).text ||
            '<' in GenerateDailyContent(u.objetivos, u.nombre, a).text
    ensures d.dispatch == SendEmailWithService(o)
  {
    var text := GenerateDailyContent(u.objetivos, u.nombre, a).text;
    var d := Delivery(Message(u.email, Subject(Daily, u.nombre, date), u.nombre, FormatContent(text)), SendEmailWithService(o));
    if '<' !in text then FormatRoundTrip(text); d else d
  }

  const TestContent := "Este es un email de prueba para verificar que el sistema funciona correctamente."

  /** `data.nombre || fallback`: an empty or missing name is replaced. */
  function OrDefault(nombre: string, fallback: string): (r: string)
    ensures nombre != "" ==> r == nombre
    ensures nombre == "" ==> r == fallback
  {
    if nombre == "" then fallback else nombre
  }

  /** The response of a test send, and the message it sent, if any. */
  datatype TestOutcome = TestOutcome(response: Response, delivery: Option<Delivery>)

  /** `handleSendTest`: send the fixed test copy through failover and relay its result as the response. */
  function HandleSendTest(request: RequestBody, o: Outcomes, date: string): (r: TestOutcome)
    ensures request.Unparsable? ==> r.response == Response(500, Failed(Some(request.message))) && r.delivery.None?
    ensures request.Parsed? ==>
              r.delivery.Some? && r.response == Response(200, Relayed(r.delivery.value.dispatch.result)) &&
              r.delivery.value.dispatch == SendEmailWithService(o) &&
              r.delivery.value.message.content == FormatContent(TestContent) &&
              r.delivery.value.message.to == request.user.email &&
              r.delivery.value.message.subject == Subject(Welcome, OrDefault(request.user.nombre, "Usuario"), date)
    ensures request.Parsed? && request.user.nombre == "" ==>
              r.delivery.value.message.greeting == "Test User" && Contains(r.delivery.value.message.subject, "Usuario")
    ensures request.Parsed? && request.user.nombre != "" ==>
              r.delivery.value.message.greeting == request.user.nombre && Contains(r.delivery.value.message.subject, request.user.nombre)
  {
    match request
    case Unparsable(message) => TestOutcome(Response(500, Failed(Some(message))), None)
    case Parsed(user) =>
      var greeting := OrDefault(user.nombre, "Test User");
      var subject := Subject(Welcome, OrDefault(user.nombre, "Usuario"), date);
      var d := Delivery(Message(user.email, subject, greeting, FormatContent(TestContent)), SendEmailWithService(o));
      TestOutcome(Response(200, Relayed(d.dispatch.result)), Some(d))
  }
}

=== FILE: registration.dfy ===
/** The record a submission carries and the sheet store returns. */
module Registration {

  /** One registration: `{email, nombre, objetivos, diaRecordatorio}`. */
  datatype User = User(email: string, nombre: string, objetivos: string, diaRecordatorio: string)
}

=== FILE: schedule.dfy ===
/**
 * The daily run: fetch every registration from the sheet store, keep those whose
 * reminder day is today, and send them in consecutive batches of three with a
 * pause between batches. Sending itself is in `Handlers`; here a run is the plan
 * of batches and pauses it carries out.
 */
module Schedule {
  import opened Common
  import opened Days
  import opened Registration

  /** What the sheet endpoint's JSON body decodes to. */
  datatype SheetValue = UserList(users: seq<User>) | NotAList

  /** The outcome of the GET to the sheet endpoint: a decoded body, or a `fetch`/`json()` that threw. */
  datatype SheetReply = Answered(value: SheetValue) | Unreachable

  /**
   * `getUsersFromSheets`: the decoded body is handed on untouched, and a call that
   * throws becomes the empty list, so a user can only come from the sheet's own answer.
   */
  function GetUsersFromSheets(reply: SheetReply): (r: SheetValue)
    ensures reply.Answered? ==> r == reply.value
    ensures reply.Unreachable? ==> r == UserList([])
    ensures r.UserList? && |r.users| > 0 ==> reply == Answered(r)
  {
    match reply
    case Answered(v) => v
    case Unreachable => UserList([])
  }

  /** The filter predicate: `DAYS_MAP[user.diaRecordatorio] === todayDay`. */
  predicate IsDue(u: User, today: Weekday)
  {
    DayIndex(u.diaRecordatorio) == Some(today)
  }

  /** `users.filter(...)`: the users due today, in their original order. */
  function Select(users: seq<User>, today: Weekday): (r: seq<User>)
    ensures forall i :: 0 <= i < |r| ==> IsDue(r[i], today)
    ensures forall u :: multiset(r)[u] == if IsDue(u, today) then multiset(users)[u] else 0
    ensures IsSubsequence(r, users)
    decreases |users|
  {
    if |users| == 0 then []
    else
      assert users == [users[0]] + users[1..];
      var rest := Select(users[1..], today);
      if IsDue(users[0], today) then [users[0]] + rest else rest
  }

  /**
   * The users the run sends to. A body that is not a list makes `users.filter`
   * throw, which the run's own `catch` swallows, so nobody is sent to.
   */
  function DueToday(reply: SheetReply, today: Weekday): (r: seq<User>)
    ensures reply.Unreachable? ==> r == []
    ensures reply.Answered? && reply.value.NotAList? ==> r == []
    ensures reply.Answered? && reply.value.UserList? ==>
              IsSubsequence(r, reply.value.users) &&
              forall u :: multiset(r)[u] == if IsDue(u, today) then multiset(reply.value.users)[u] else 0
  {
    match GetUsersFromSheets(reply)
    case UserList(users) => Select(users, today)
    case NotAList => []
  }

  /** Users whose label is not one of the seven are never selected, whatever the day. */
  lemma UnknownLabelNeverSelected(users: seq<User>, today: Weekday, u: User)
    requires u.diaRecordatorio !in DaysMap
    ensures u !in Select(users, today)
  {
    assert multiset(Select(users, today))[u] == 0;
  }

  /** A user is selected exactly when it is in the list and its label maps to today. */
  lemma SelectedIff(users: seq<User>, today: Weekday, u: User)
    ensures u in Select(users, today) <==> u in users && IsDue(u, today)
  {
    var r := Select(users, today);
    assert u in r <==> multiset(r)[u] > 0;
    assert u in users <==> multiset(users)[u] > 0;
  }

  /** Number of users sent concurrently in one batch. */
  const BatchSize: nat := 3

  function Flatten<T>(xss: seq<seq<T>>): seq<T>
    decreases |xss|
  {
    if |xss| == 0 then [] else xss[0] + Flatten(xss[1..])
  }

  /** The reference partition: consecutive runs of `BatchSize`, the last one possibly shorter. */
  function Chunks<T>(xs: seq<T>): (r: seq<seq<T>>)
    ensures Flatten(r) == xs
    ensures |r| == (|xs| + BatchSize - 1) / BatchSize
    ensures forall i :: 0 <= i < |r| ==> 1 <= |r[i]| <= BatchSize
    ensures forall i :: 0 <= i < |r| - 1 ==> |r[i]| == BatchSize
    decreases |xs|
  {
    if |xs| == 0 then []
    else if |xs| <= BatchSize then [xs]
    else
      var r := [xs[..BatchSize]] + Chunks(xs[BatchSize..]);
      assert r[1..] == Chunks(xs[BatchSize..]);
      assert xs == xs[..BatchSize] + xs[BatchSize..];
      r
  }

  /** Batch `i` is the slice `usersToday.slice(3 * i, 3 * i + 3)`. */
  lemma {:induction false} ChunkAt<T>(xs: seq<T>, i: nat)
    requires i < |Chunks(xs)|
    ensures Chunks(xs)[i] == xs[BatchSize * i .. Min(BatchSize * i + BatchSize, |xs|)]
    decreases |xs|
  {
    if |xs| > BatchSize && i > 0 {
      var tail := xs[BatchSize..];
      assert Chunks(xs)[i] == Chunks(tail)[i - 1];
      ChunkAt(tail, i - 1);
      ShiftedSlice(xs, i - 1);
    }
  }

  /** Slice `k` of `xs[3..]` is slice `k + 1` of `xs`. */
  lemma ShiftedSlice<T>(xs: seq<T>, k: nat)
    requires |xs| > BatchSize && BatchSize * k < |xs| - BatchSize
    ensures var tail := xs[BatchSize..];
            tail[BatchSize * k .. Min(BatchSize * k + BatchSize, |tail|)]
            == xs[BatchSize * (k + 1) .. Min(BatchSize * (k + 1) + BatchSize, |xs|)]
  {
    var lo := BatchSize * k;
    assert BatchSize * (k + 1) == lo + BatchSize;
  }

  /** `batches` are the first `|batches|` slices `[3j, 3j + 3)` of `xs`, cut at its end. */
  ghost predicate SlicesOf<T>(xs: seq<T>, batches: seq<seq<T>>)
  {
    forall j :: 0 <= j < |batches| ==>
      BatchSize * j <= |xs| && batches[j] == xs[BatchSize * j .. Min(BatchSize * j + BatchSize, |xs|)]
  }

  /** Appending the slice that starts where the previous ones stopped keeps the batches slices. */
  lemma SlicesExtend<T>(xs: seq<T>, batches: seq<seq<T>>)
    requires SlicesOf(xs, batches) && BatchSize * |batches| < |xs|
    ensures var i := BatchSize * |batches|;
            SlicesOf(xs, batches + [xs[i .. Min(i + BatchSize, |xs|)]])
  {
  }

  /** Batches that are the consecutive slices of `xs`, covering it, are its reference partition. */
  lemma SlicesAreChunks<T>(xs: seq<T>, batches: seq<seq<T>>)
    requires |xs| <= BatchSize * |batches| < |xs| + BatchSize
    requires SlicesOf(xs, batches)
    ensures batches == Chunks(xs)
  {
    assert |batches| == |Chunks(xs)|;
    forall j | 0 <= j < |batches|
      ensures batches[j] == Chunks(xs)[j]
    {
      ChunkAt(xs, j);
    }
  }

  /** What one daily run does: the batches sent, in order, and the number of 2-second pauses taken. */
  datatype DailyPlan = DailyPlan(batches: seq<seq<User>>, pauses: nat)

  /**
   * The batching loop of `sendDailyEmails` over the users due today: it takes the
   * slice `[i, i + 3)` for `i = 0, 3, 6, ...` as a batch and pauses only when another
   * batch follows.
   */
  method PlanBatches(usersToday: seq<User>) returns (plan: DailyPlan)
    ensures plan.batches == Chunks(usersToday)
    ensures Flatten(plan.batches) == usersToday
    ensures plan.pauses == if |plan.batches| == 0 then 0 else |plan.batches| - 1
    ensures var n := |usersToday|;
            plan.pauses == if n == 0 then 0 else (n + BatchSize - 1) / BatchSize - 1
  {
    var n := |usersToday|;
    var batches: seq<seq<User>> := [];
    var pauses: nat := 0;
    var i := 0;
    while i < n
      invariant 0 <= i < n + BatchSize
      invariant i == BatchSize * |batches|
      invariant SlicesOf(usersToday, batches)
      invariant pauses == if i == 0 then 0 else if i < n then |batches| else |batches| - 1
    {
      SlicesExtend(usersToday, batches);
      var batch := usersToday[i .. Min(i + BatchSize, n)];
      batches := batches + [batch];
      if i + BatchSize < n {
        pauses := pauses + 1;
      }
      i := i + BatchSize;
    }
    SlicesAreChunks(usersToday, batches);
    plan := DailyPlan(batches, pauses);
  }

  /** `sendDailyEmails` with today's weekday passed in: the due users, batched. */
  method SendDailyEmails(reply: SheetReply, today: Weekday) returns (plan: DailyPlan)
    ensures plan.batches == Chunks(DueToday(reply, today))
    ensures Flatten(plan.batches) == DueToday(reply, today)
    ensures plan.pauses == if |plan.batches| == 0 then 0 else |plan.batches| - 1
    ensures var n := |DueToday(reply, today)|;
            plan.pauses == if n == 0 then 0 else (n + BatchSize - 1) / BatchSize - 1
  {
    plan := PlanBatches(DueToday(reply, today));
  }

  /** The worked example: seven users go out as batches of 3, 3 and 1. */
  lemma SevenSplit<T>(xs: seq<T>)
    requires |xs| == 7
    ensures Chunks(xs) == [xs[..3], xs[3..6], xs[6..]]
  {
    assert Chunks(xs[6..]) == [xs[6..]];
    var mid := xs[3..];
    assert mid[3..] == xs[6..];
    assert mid[..3] == xs[3..6];
    assert Chunks(mid) == [mid[..3]] + Chunks(mid[3..]);
    assert Chunks(xs) == [xs[..3]] + Chunks(xs[3..]);
  }

  /** When every user is due, the filter keeps the whole list. */
  lemma {:induction false} SelectKeepsAllDue(users: seq<User>, today: Weekday)
    requires forall i :: 0 <= i < |users| ==> IsDue(users[i], today)
    ensures Select(users, today) == users
    decreases |users|
  {
    if |users| > 0 {
      SelectKeepsAllDue(users[1..], today);
    }
  }
}
